=== FILE: README.md ===
# cyphers — a Dafny model of the ciphers and the frequency analysers

The model covers the cipher core of h8rtv/cyphers, which is written in Rust.

- **Alphabet.** Every operation works on one 62-symbol ring: the ten digits, then `A`–`Z`, then `a`–`z` (`ALPHANUM_CHARS`).
- **Caesar.** It moves each symbol a fixed `u8` key forward around the ring (backward when decrypting). Every other character is copied.
- **Vernam.** It moves the symbol at position i by the alphabet position of key byte i.
  - It fails when the text has more UTF-8 bytes than the key has bytes.
  - It also fails when one of the key bytes it consumes is not a symbol.
- **`roll`.** The shared ring-shift helper.
- **`generate_vernam_key`.** Draws random symbols and stores them as bytes.
- **Frequency analysers.** There are three. Each counts the symbols of a text and ranks them with a stable sort by descending count, ties in index order.
  - The analyser of `src/cryptanalysis.rs` also ranks the raw bytes. It then lets each of the 26 top-ranked symbols vote for the Caesar shifts that carry the nearby letters of a Portuguese frequency list onto it, and sorts the shifts that got votes by score.
  - The other two print the ranking and return the Caesar decryption with the fixed key 17.

Modules:

- `Wrappers`: `Option` and `Result`.
- `CipherErrors`: the two error cases.
- `Utils`:
  - the alphabet, `roll` and the key generator;
  - Rust's truncating `%`;
  - the `u8`/`i32` ranges.
- `Cesar`, `Vernam` and `Strategy`: the two ciphers and their dispatch enum.
- `Frequencies`: the histogram loops and the stable ranking.
- `PortugueseDict`: both dictionary tables.
- `VotingAnalysis`: `analyse` of `src/cryptanalysis.rs`.
- `PairingAnalysis`: `analyse` of `cyphers/src/cryptanalysis.rs`.
- `StrategyAnalysis`: `decrypt` of `cyphers/src/algorithm/cryptanalysis.rs`.

Three facts about the code that shape the model:

- **`analyse` decides nothing.** `analyse` of src/cryptanalysis.rs returns `()`. It picks no key, has no error for an input without symbols, and decodes nothing. The model returns what it prints, as a `Report`.
- **The voting window is asymmetric.** Rank i is compared with dictionary entries i−3 to i+2: the slice `start_index..end_index` at src/cryptanalysis.rs:104-108, clipped to the list. The windows hold 3, 4 and 5 entries at the top, then 21 windows of 6, then 5 and 4 at the bottom: 147 votes in all, whatever the input.
- **The dictionary is in list order.** The voting pairs ranks with the dictionary in the order the list is written. That order is not frequency order ('s' comes after 'r' and 'i').

## Model

| member | source | states |
|---|---|---|
| Utils.AlphabetIsAlphanumChars | src/utils.rs:3-4 | The alphabet is the 62 characters `0`–`9`, `A`–`Z`, `a`–`z` in that order. cyphers/src/algorithm/cryptanalysis.rs:53-55 holds the same constant. |
| Utils.IndexOf | src/utils.rs:7 | `find` returns None exactly for characters outside the alphabet. Otherwise it returns the first position holding the character. |
| Utils.IndexOfSymbol | src/utils.rs:7 | Looking up the symbol at any position gives that position back, so positions and symbols correspond one to one. |
| Utils.TruncRem | src/utils.rs:8 | Rust's `%` by 62 agrees with the residue on non-negative dividends. On negative ones it lies in (−62, 0]. It always differs from the dividend by a multiple of 62. |
| Utils.ShiftIndex | src/utils.rs:8-14 | Every intermediate value of the index arithmetic stays inside `i32`. The output index is the mathematical residue of index + amount for amounts of either sign, so the `expect` never fires. |
| Utils.Roll | src/utils.rs:6-18 | `roll` gives None exactly for non-symbols. Otherwise it gives the symbol whose position is (position + amount) mod 62. |
| Utils.RollOrKeep | cyphers/src/algorithm/vernam.rs:27-30 | The push-or-keep `match` on `roll`: a non-symbol is kept, and a symbol becomes the symbol at (position + amount) mod 62. |
| Utils.RollZero | src/utils.rs:6-18 | Rolling a symbol by 0 returns it. |
| Utils.RollInverse | src/utils.rs:6-18 | Rolling by −amount undoes rolling by amount, for every `i32` amount except the one whose negation overflows. |
| Utils.RollInjective | src/utils.rs:6-18 | For a fixed amount, different symbols roll to different symbols. |
| Utils.RollSurjective | src/utils.rs:6-18 | For a fixed amount, every symbol is the image of some symbol, so `roll` permutes the alphabet. |
| Utils.RollCongruent | src/utils.rs:8-10 | Amounts congruent modulo 62 roll every character identically. |
| Utils.GenerateVernamKey | src/utils.rs:20-32 | The key has one byte per draw. Byte i, read back as a character, is the alphabet symbol at the drawn position, so every generated byte is a valid key byte. |
| Utils.SymbolByte | src/utils.rs:24-29 | `char as u8` of a symbol is exact: reading the byte back as a character finds the same position. |
| Cesar.EncryptChar | cyphers/src/algorithm/cesar.rs:15-27 | Non-symbols are kept. A symbol at position i becomes the symbol at (i + key) mod 62. |
| Cesar.DecryptChar | cyphers/src/algorithm/cesar.rs:34-47 | Non-symbols are kept. Lifting by 62 before subtracting key mod 62 gives the residue (i − key) mod 62. |
| Cesar.Encrypt | cyphers/src/algorithm/cesar.rs:12-29 | Encryption never fails and keeps the length. Non-symbols stay at their positions. Each symbol moves key places forward. |
| Cesar.Decrypt | cyphers/src/algorithm/cesar.rs:31-49 | Decryption never fails and keeps the length. Non-symbols stay at their positions. Each symbol moves key places backward. |
| Cesar.EncryptIsRoll | cyphers/src/algorithm/cesar.rs:15-27 | Caesar encryption is `roll` by the key applied to each character. |
| Cesar.DecryptIsRoll | cyphers/src/algorithm/cesar.rs:34-47 | Caesar decryption is `roll` by the negated key applied to each character. |
| Cesar.DecryptEncrypt | cyphers/src/algorithm/cesar.rs:12-49 | Decrypting the encryption with the same key gives every text back. |
| Cesar.EncryptDecrypt | cyphers/src/algorithm/cesar.rs:12-49 | Encrypting the decryption with the same key gives every text back. |
| Cesar.KeyModuloRing | cyphers/src/algorithm/cesar.rs:17-38 | Keys congruent modulo 62 give the same encryption and the same decryption of every text. |
| Cesar.KnownAnswerSimple | cyphers/src/algorithm/cesar.rs:59-67 | With key 1, "A" encrypts to "B", and "B" decrypts to "A". |
| Cesar.KnownAnswerUpper | cyphers/src/algorithm/cesar.rs:69-77 | With key 10, "TESTE" encrypts to "dOcdO" and back. |
| Cesar.KnownAnswerLower | cyphers/src/algorithm/cesar.rs:79-87 | With key 10, "teste" encrypts to "3o23o" and back. |
| Cesar.KnownAnswerNum | cyphers/src/algorithm/cesar.rs:89-97 | With key 10, "12345" encrypts to "BCDEF" and back. |
| Cesar.KnownAnswerHighEnd | cyphers/src/algorithm/cesar.rs:122-130 | With key 10, "vwxyz" wraps around to "56789" and back. |
| Vernam.Utf8Len | cyphers/src/algorithm/vernam.rs:17 | `str::len` counts UTF-8 bytes, never fewer than the characters. |
| Vernam.Utf8LenAscii | cyphers/src/algorithm/vernam.rs:17 | For ASCII text the byte length equals the character count. |
| Vernam.KeyIndex | cyphers/src/algorithm/vernam.rs:26 | A key byte read as a character has a position exactly when it is a symbol, and the symbol at that position is the byte. |
| Vernam.Lockstep | cyphers/src/algorithm/vernam.rs:25-34 | The zip loop succeeds exactly when every consumed key byte is a symbol. A failure is "Unsupported key". On success, character i is rolled by the position of key byte i. |
| Vernam.Encrypt | cyphers/src/algorithm/vernam.rs:14-36 | Encryption fails with the length error exactly when the text has more bytes than the key. Otherwise it fails with "Unsupported key" exactly when a consumed key byte is not a symbol. Otherwise the result has the same length, with non-symbols copied and symbols moved forward by their key symbol. |
| Vernam.Decrypt | cyphers/src/algorithm/vernam.rs:38-60 | Decryption has the same two error conditions. Symbols are moved backward by their key symbol. |
| Vernam.StepInverse | cyphers/src/algorithm/vernam.rs:27-51 | The decrypting step undoes the encrypting step with the same key symbol, and the reverse. |
| Vernam.DecryptEncrypt | cyphers/src/algorithm/vernam.rs:14-60 | Whenever encryption succeeds, decrypting its output with the same key gives the message back. |
| Vernam.EncryptDecrypt | cyphers/src/algorithm/vernam.rs:14-60 | Whenever decryption succeeds, encrypting its output with the same key gives the cypher back. |
| Vernam.KeyTailIgnored | cyphers/src/algorithm/vernam.rs:25 | Once the key is long enough, key bytes past the text never change the outcome, even bytes that are not symbols. |
| Vernam.GeneratedKeyWorks | src/utils.rs:20-32 | A generated key at least as long as the message in bytes always encrypts it, and the encryption decrypts back. |
| Vernam.EncryptSimple | cyphers/src/algorithm/vernam.rs:70-78 | Key "12345" encrypts "ABCDE" to "BDFHJ". |
| Vernam.EncryptMixed | cyphers/src/algorithm/vernam.rs:80-90 | Key "abc69" encrypts "HELLO" to "rpxRX". |
| Vernam.DecryptSimple | cyphers/src/algorithm/vernam.rs:96-104 | Key "12345" decrypts "BDFHJ" to "ABCDE". |
| Vernam.DecryptMixed | cyphers/src/algorithm/vernam.rs:106-116 | Key "abc69" decrypts "rpxRX" to "HELLO". |
| Strategy.Encrypt | cyphers/src/algorithm/mod.rs:16-20 | Encryption with the Caesar variant always succeeds. A success of either variant keeps the length. |
| Strategy.Decrypt | cyphers/src/algorithm/mod.rs:16-20 | Decryption with the Caesar variant always succeeds. A success of either variant keeps the length. |
| Strategy.RoundTrip | cyphers/src/algorithm/mod.rs:16-20 | For either variant of the dispatch enum, decrypting a successful encryption gives the message back. The Caesar variant never fails. |
| Frequencies.CountSymbols | src/cryptanalysis.rs:63-72 | Bucket s counts the occurrences of symbol s. The total counts the symbols of the text and equals the sum of the buckets. |
| Frequencies.CountSymbol | src/cryptanalysis.rs:67-71 | One pass of the loop raises the bucket of the character, if it is a symbol, and the total by one, keeping both counts exact. |
| Frequencies.Latin1 | src/cryptanalysis.rs:68 | `*c as char` gives one character per byte, whose code is the byte. |
| Frequencies.CountBytes | src/cryptanalysis.rs:83-88 | Bucket b counts the occurrences of byte b. The total is the input length and the sum of the buckets. |
| Frequencies.StableSortDesc | src/cryptanalysis.rs:79 | The result is a permutation of the input, ordered by non-increasing count, with equal counts in their original order. |
| Frequencies.Rank | src/cryptanalysis.rs:73-79 | The ranking is a permutation of all bucket indices, ordered by non-increasing count, with ties in ascending index. |
| Frequencies.RankedUnique | src/cryptanalysis.rs:79 | Two arrangements of the same buckets that both follow the ranking order are equal. |
| Frequencies.RankCharacterised | src/cryptanalysis.rs:73-79 | A sequence is the ranking if and only if it is a permutation of the bucket indices in ranking order. |
| PortugueseDict.LettersWellFormed | src/cryptanalysis.rs:7-36 | The list holds 26 pairwise different lower-case letters, all alphabet symbols, so the `unwrap` on their position never panics. |
| PortugueseDict.ListOrderIsNotFrequencyOrder | src/cryptanalysis.rs:12-14 | The list is not sorted by frequency: some letter has a lower frequency than a letter listed after it. |
| PortugueseDict.UpperTableKeys | cyphers/src/algorithm/cryptanalysis.rs:12-43 | The map's keys are exactly the 26 upper-case letters. |
| PortugueseDict.TablesAgree | cyphers/src/algorithm/cryptanalysis.rs:12-43 | The upper-case map gives every list letter, upper-cased, the same frequency as the list in src/cryptanalysis.rs. |
| VotingAnalysis.LetterIndex | src/cryptanalysis.rs:111 | The position of dictionary letter j is a lower-case position holding that letter. |
| VotingAnalysis.LetterIndexInjective | src/cryptanalysis.rs:111 | Different dictionary entries sit at different positions. |
| VotingAnalysis.WindowStart | src/cryptanalysis.rs:104 | `start_index` lies at most three entries before rank i. It is exactly three before when i > 3, and 0 otherwise. |
| VotingAnalysis.WindowEnd | src/cryptanalysis.rs:106 | `end_index` lies at most three entries after rank i and never past the list. It is i + 3 or the end of the list. |
| VotingAnalysis.WindowBounds | src/cryptanalysis.rs:104-108 | The window of rank i contains entry i, stays inside the list and has at most six entries. |
| VotingAnalysis.VoteShift | src/cryptanalysis.rs:113-114 | `diff` is the shift in 0..62 that carries the dictionary letter's position onto the ranked symbol's position. |
| VotingAnalysis.VoteShiftUnique | src/cryptanalysis.rs:113-114 | No other shift in 0..62 does that. |
| VotingAnalysis.VoteIsCaesarKey | src/cryptanalysis.rs:113-114 | Caesar encryption with the voted shift as key turns the dictionary letter into the ranked symbol. |
| VotingAnalysis.RankVotes | src/cryptanalysis.rs:104-115 | Rank i casts one vote per entry of its window, in window order. |
| VotingAnalysis.Votes | src/cryptanalysis.rs:99-115 | Every vote the first n ranks cast is a shift in 0..62, so `guesses[diff as usize]` is always in bounds. |
| VotingAnalysis.VotesAtMostSix | src/cryptanalysis.rs:104-108 | The first n ranks cast at most 6n votes. |
| VotingAnalysis.VoteTotal | src/cryptanalysis.rs:98-122 | The 26 ranks cast exactly 147 votes, whatever the input. |
| VotingAnalysis.CastVote | src/cryptanalysis.rs:113-115 | One vote raises its shift's score by one without leaving `u8`. |
| VotingAnalysis.CastRankVotes | src/cryptanalysis.rs:108-120 | The inner loop adds exactly the votes of rank i to the scores. |
| VotingAnalysis.Tally | src/cryptanalysis.rs:98-122 | Score d is the number of votes for shift d. The scores add up to 147, and none overflows `u8`. |
| VotingAnalysis.AlignedVotes | src/cryptanalysis.rs:98-115 | If the top 26 ranks are the dictionary letters shifted by k, in list order, shift k receives exactly one vote per rank. |
| VotingAnalysis.Voted | src/cryptanalysis.rs:123 | The filter keeps exactly the shifts with a positive score, ascending. |
| VotingAnalysis.SortedGuesses | src/cryptanalysis.rs:123-125 | The guesses list every voted shift once with its score, by non-increasing score, ties in ascending shift. |
| VotingAnalysis.GuessListUnique | src/cryptanalysis.rs:123-125 | Any list meeting that description is the list the stable sort produces. |
| VotingAnalysis.GuessHead | src/cryptanalysis.rs:123-125 | When any shift got a vote, the first guess has the highest score, and the lowest shift among equal scores. |
| VotingAnalysis.Analyse | src/cryptanalysis.rs:62-129 | The report has everything `analyse` prints: the symbol buckets of the bytes read as Latin-1 characters with their ranking, the byte buckets with their ranking, the vote scores and the guesses, each as stated above. |
| PairingAnalysis.ToAsciiLower | cyphers/src/cryptanalysis.rs:88 | Upper-case ASCII letters are lowered and every other character is kept. |
| PairingAnalysis.Distance | cyphers/src/cryptanalysis.rs:90 | `abs` of the code difference: adding it to the smaller code gives the larger. |
| PairingAnalysis.PairAt | cyphers/src/cryptanalysis.rs:84-90 | One row pairs the lowered ranked symbol with dictionary letter k. The distance is the absolute difference of their codes, zero exactly when the two are equal. |
| PairingAnalysis.Pairings | cyphers/src/cryptanalysis.rs:83-95 | The zip loop pairs the ranking with the dictionary as far as the shorter goes, row k with entry k. Each row carries the absolute code difference that is printed. |
| PairingAnalysis.Analyse | cyphers/src/cryptanalysis.rs:61-101 | The histogram and ranking are as in `Frequencies`, and 26 pairs are formed, each with the printed absolute code distance (`Diff`). The result is the Caesar decryption with key 17, whatever the histogram: it never fails, keeps the length, and encrypts back to the input. |
| StrategyAnalysis.Decrypt | cyphers/src/algorithm/cryptanalysis.rs:63-96 | The ranking ranks the input's symbol histogram. The result is the Caesar decryption with key 17: it never fails, keeps the length, and encrypts back to the input. |

## Left out

- Transliteration (`deunicode`) is a foreign library. The two ciphers and the two fixed-key analysers take the text as it stands after transliteration. For that reason the Cesar tests on diacritics and whitespace are not restated. `analyse` of src/cryptanalysis.rs transliterates nothing. It reads the raw bytes (src/cryptanalysis.rs:62,67-68), each as the Latin-1 character with that code, so no byte of a multi-byte UTF-8 character counts as a symbol. The model keeps this difference: `VotingAnalysis.Analyse` takes the bytes.
- Randomness: `generate_vernam_key` takes the drawn indices as a parameter instead of calling the random generator.
- The `f32` frequencies are left out because they are floating point. The model ranks the integer counts, which matches the float ranking when all frequencies share one total.
  - An empty histogram gives `0/0 = NaN` in every bucket. All buckets tie, so index order results, the same as for integer zeros.
  - Counts too large for `f32` to tell apart are not modelled.
- The dictionaries' frequencies are kept as whole hundredths of a percent. Only their order is used.
- Output: every `println!`, `print_table_of_freqs` and `print_table_of_freqs_unbounded` is left out. The values they print are returned instead.
- The error messages: Vernam's length errors are one `TextLongerThanKey(text bytes, key bytes)` case. Their wording, which differs between encrypt and decrypt, is left out.
- `encrypt` of the cryptanalysis strategy in cyphers/src/algorithm/cryptanalysis.rs:58-61 is `unreachable!()`. Calling it panics, so it has no behaviour to model.
- The command lines and entry points (src/main.rs, src/cli.rs, cyphers/src/main.rs, cyphers/src/cli.rs) are left out because they are I/O.
- cyphers/src/utils.rs and cyphers/src/constants.rs are not part of this model. Vernam and Cesar import `roll` and the alphabet from them. The model uses the `roll` and alphabet of src/utils.rs.
- Frequencies.CountSymbols: the Rust bucket and `total_length` counters are `i32` (src/cryptanalysis.rs:63-66, cyphers/src/cryptanalysis.rs:62-66, cyphers/src/algorithm/cryptanalysis.rs:64-68). An input with 2^31 or more symbols overflows them, a panic in a debug build and a wrap-around in a release build. The model's counts are unbounded.
- Frequencies.CountBytes: the same holds for `char_buckets_unbounded` and its `total_length` (src/cryptanalysis.rs:83-88) on inputs of 2^31 or more bytes. The model's `byteTotal == |cypher|` holds only below that size in the source.
- Vernam.Utf8Len: the length check counts UTF-8 bytes. After transliteration the text is ASCII, so bytes and characters agree, but the model does not assume that.

=== FILE: cesar.dfy ===
/** The Caesar cipher over the 62-symbol ring (cyphers/src/algorithm/cesar.rs).
    The text given to each operation is the transliterated text; the
    transliteration step itself is not modelled. */
module Cesar {
  import opened Wrappers
  import opened Utils
  import opened CipherErrors

  /** One loop step of `Cesar::encrypt`. */
  function EncryptChar(c: char, key: uint8): (r: char)
    ensures !IsSymbol(c) ==> r == c
    ensures IsSymbol(c) ==> IndexOf(r) == Some((IndexOf(c).value + key) % AlphabetLen)
  {
    match IndexOf(c)
    case None => c
    case Some(i) =>
      IndexOfSymbol((i + key) % AlphabetLen);
      Alphabet[(i + key) % AlphabetLen]
  }

  /** One loop step of `Cesar::decrypt`: the index is lifted by 62 before the
      reduced key is subtracted, so the dividend is never negative and Rust's
      truncating `%` agrees with the mathematical residue. */
  function DecryptChar(c: char, key: uint8): (r: char)
    ensures !IsSymbol(c) ==> r == c
    ensures IsSymbol(c) ==> IndexOf(r) == Some((IndexOf(c).value - key) % AlphabetLen)
  {
    match IndexOf(c)
    case None => c
    case Some(i) =>
      var j := (i + AlphabetLen - key % AlphabetLen) % AlphabetLen;
      ModCongruent(i + AlphabetLen - key % AlphabetLen, i - key);
      IndexOfSymbol(j);
      Alphabet[j]
  }

  /** `Cesar::encrypt`: each symbol moves `key` places forward around the
      ring; every other character stays where it is. It never fails. */
  function Encrypt(message: string, key: uint8): (r: Result<string, CipherError>)
    ensures r.Success?
    ensures |r.value| == |message|
    ensures forall i :: 0 <= i < |message| && !IsSymbol(message[i]) ==> r.value[i] == message[i]
    ensures forall i :: 0 <= i < |message| && IsSymbol(message[i]) ==>
      IndexOf(r.value[i]) == Some((IndexOf(message[i]).value + key) % AlphabetLen)
  {
    Success(seq(|message|, i requires 0 <= i < |message| => EncryptChar(message[i], key)))
  }

  /** `Cesar::decrypt`: each symbol moves `key` places backward around the
      ring; every other character stays where it is. It never fails. */
  function Decrypt(cypher: string, key: uint8): (r: Result<string, CipherError>)
    ensures r.Success?
    ensures |r.value| == |cypher|
    ensures forall i :: 0 <= i < |cypher| && !IsSymbol(cypher[i]) ==> r.value[i] == cypher[i]
    ensures forall i :: 0 <= i < |cypher| && IsSymbol(cypher[i]) ==>
      IndexOf(r.value[i]) == Some((IndexOf(cypher[i]).value - key) % AlphabetLen)
  {
    Success(seq(|cypher|, i requires 0 <= i < |cypher| => DecryptChar(cypher[i], key)))
  }

  /** Caesar is the ring shift of src/utils.rs applied with the key as amount. */
  lemma EncryptIsRoll(message: string, key: uint8)
    ensures forall i :: 0 <= i < |message| ==> Encrypt(message, key).value[i] == RollOrKeep(message[i], key)
  {
    forall i | 0 <= i < |message| && IsSymbol(message[i])
      ensures Encrypt(message, key).value[i] == RollOrKeep(message[i], key)
    {
      SameIndexSameSymbol(Encrypt(message, key).value[i], RollOrKeep(message[i], key));
    }
  }

  lemma DecryptIsRoll(cypher: string, key: uint8)
    ensures forall i :: 0 <= i < |cypher| ==> Decrypt(cypher, key).value[i] == RollOrKeep(cypher[i], -(key as int))
  {
    forall i | 0 <= i < |cypher| && IsSymbol(cypher[i])
      ensures Decrypt(cypher, key).value[i] == RollOrKeep(cypher[i], -(key as int))
    {
      SameIndexSameSymbol(Decrypt(cypher, key).value[i], RollOrKeep(cypher[i], -(key as int)));
    }
  }

  lemma DecryptEncryptChar(c: char, key: uint8)
    ensures DecryptChar(EncryptChar(c, key), key) == c
  {
    if IsSymbol(c) {
      var m := IndexOf(c).value;
      ResidueAddSub(m, key);
      SameIndexSameSymbol(DecryptChar(EncryptChar(c, key), key), c);
    }
  }

  lemma EncryptDecryptChar(c: char, key: uint8)
    ensures EncryptChar(DecryptChar(c, key), key) == c
  {
    if IsSymbol(c) {
      var m := IndexOf(c).value;
      ResidueAddSub(m, -(key as int));
      SameIndexSameSymbol(EncryptChar(DecryptChar(c, key), key), c);
    }
  }

  /** Decryption undoes encryption, for every text and every `u8` key. */
  lemma DecryptEncrypt(message: string, key: uint8)
    ensures Decrypt(Encrypt(message, key).value, key) == Success(message)
  {
    var back := Decrypt(Encrypt(message, key).value, key).value;
    forall i | 0 <= i < |message| ensures back[i] == message[i] {
      DecryptEncryptChar(message[i], key);
    }
    assert back == message;
  }

  /** ... and encryption undoes decryption: both are bijections on texts. */
  lemma EncryptDecrypt(cypher: string, key: uint8)
    ensures Encrypt(Decrypt(cypher, key).value, key) == Success(cypher)
  {
    var back := Encrypt(Decrypt(cypher, key).value, key).value;
    forall i | 0 <= i < |cypher| ensures back[i] == cypher[i] {
      EncryptDecryptChar(cypher[i], key);
    }
    assert back == cypher;
  }

  lemma KeyModuloRingChar(c: char, k1: uint8, k2: uint8)
    requires k1 % AlphabetLen == k2 % AlphabetLen
    ensures EncryptChar(c, k1) == EncryptChar(c, k2)
    ensures DecryptChar(c, k1) == DecryptChar(c, k2)
  {
    if IsSymbol(c) {
      var t := IndexOf(c).value;
      ModCongruent(t + k1, t + k2);
      ModCongruent(t - k1, t - k2);
      SameIndexSameSymbol(EncryptChar(c, k1), EncryptChar(c, k2));
      SameIndexSameSymbol(DecryptChar(c, k1), DecryptChar(c, k2));
    }
  }

  /** Only the key modulo 62 affects either direction. */
  lemma KeyModuloRing(text: string, k1: uint8, k2: uint8)
    requires k1 % AlphabetLen == k2 % AlphabetLen
    ensures Encrypt(text, k1) == Encrypt(text, k2)
    ensures Decrypt(text, k1) == Decrypt(text, k2)
  {
    var e1, e2 := Encrypt(text, k1).value, Encrypt(text, k2).value;
    var d1, d2 := Decrypt(text, k1).value, Decrypt(text, k2).value;
    forall i | 0 <= i < |text| ensures e1[i] == e2[i] && d1[i] == d2[i] {
      KeyModuloRingChar(text[i], k1, k2);
    }
    assert e1 == e2;
    assert d1 == d2;
  }

  /** A symbol's image under either direction, by its code point. */
  lemma CharImages(c: char, key: uint8)
    requires IsSymbol(c)
    ensures EncryptChar(c, key) == SymbolChar((IndexOf(c).value + key) % AlphabetLen)
    ensures DecryptChar(c, key) == SymbolChar((IndexOf(c).value - key) % AlphabetLen)
  {
    AlphabetAt((IndexOf(c).value + key) % AlphabetLen);
    AlphabetAt((IndexOf(c).value - key) % AlphabetLen);
  }

  /** The unit tests' expectations, one lemma per pair of tests; each
      decryption follows from the round trip. */
  lemma KnownAnswerSimple()
    ensures Encrypt("A", 1) == Success("B") && Decrypt("B", 1) == Success("A")
  {
    Encrypts("A", 1, "B");
    DecryptEncrypt("A", 1);
  }

  lemma KnownAnswerUpper()
    ensures Encrypt("TESTE", 10) == Success("dOcdO") && Decrypt("dOcdO", 10) == Success("TESTE")
  {
    Encrypts("TESTE", 10, "dOcdO");
    DecryptEncrypt("TESTE", 10);
  }

  lemma KnownAnswerLower()
    ensures Encrypt("teste", 10) == Success("3o23o") && Decrypt("3o23o", 10) == Success("teste")
  {
    Encrypts("teste", 10, "3o23o");
    DecryptEncrypt("teste", 10);
  }

  lemma KnownAnswerNum()
    ensures Encrypt("12345", 10) == Success("BCDEF") && Decrypt("BCDEF", 10) == Success("12345")
  {
    Encrypts("12345", 10, "BCDEF");
    DecryptEncrypt("12345", 10);
  }

  /** Wrap-around past 'z' back to the digits. */
  lemma KnownAnswerHighEnd()
    ensures Encrypt("vwxyz", 10) == Success("56789") && Decrypt("56789", 10) == Success("vwxyz")
  {
    Encrypts("vwxyz", 10, "56789");
    DecryptEncrypt("vwxyz", 10);
  }

  lemma Encrypts(message: string, key: uint8, expected: string)
    requires |message| == |expected|
    requires forall i :: 0 <= i < |message| ==>
      IndexOf(message[i]).Some? && SymbolChar((IndexOf(message[i]).value + key) % AlphabetLen) == expected[i]
    ensures Encrypt(message, key) == Success(expected)
  {
    var r := Encrypt(message, key).value;
    forall i | 0 <= i < |message| ensures r[i] == expected[i] {
      CharImages(message[i], key);
    }
    assert r == expected;
  }
}

=== FILE: dictionary.dfy ===
/** The Portuguese letter-frequency reference tables. Frequencies are kept
    as whole hundredths of a percent (0.1463 and 14.63 are both 1463); the
    analysers use only the order of the letters, never these values. */
module PortugueseDict {
  import opened Utils

  /** `portuguese_dict` of src/cryptanalysis.rs (and the identical one of
      cyphers/src/cryptanalysis.rs), in list order. */
  const Letters: seq<(char, nat)> := [
    ('a', 1463), ('e', 1257), ('o', 1073), ('r', 653), ('i', 618), ('s', 781),
    ('n', 505), ('d', 499), ('t', 434), ('u', 463), ('m', 474), ('c', 388),
    ('l', 278), ('p', 252), ('g', 130), ('h', 128), ('q', 120), ('v', 167),
    ('f', 102), ('b', 104), ('j', 40), ('z', 47), ('x', 21), ('k', 2),
    ('w', 1), ('y', 1)
  ]

  /** `self.dict.len()`. */
  const DictLen: nat := 26

  /** The list holds 26 different lower-case letters, all of them alphabet
      symbols, so the `unwrap` on their position never panics. */
  lemma LettersWellFormed()
    ensures |Letters| == DictLen
    ensures forall j :: 0 <= j < DictLen ==> 'a' <= Letters[j].0 <= 'z'
    ensures forall j :: 0 <= j < DictLen ==> IndexOf(Letters[j].0).Some?
    ensures forall j, k :: 0 <= j < k < DictLen ==> Letters[j].0 != Letters[k].0
  {
    LettersDistinct();
  }

  lemma LettersDistinct()
    ensures forall j, k :: 0 <= j < k < |Letters| ==> Letters[j].0 != Letters[k].0
  {
  }

  /** Letters are listed by decreasing frequency only roughly: 's' (7.81%)
      comes after 'r' (6.53%) and 'i' (6.18%). The voting analysis pairs
      ranks with this list order, not with a sorted one. */
  lemma ListOrderIsNotFrequencyOrder()
    ensures exists j, k :: 0 <= j < k < DictLen && Letters[j].1 < Letters[k].1
  {
    assert Letters[3].1 < Letters[5].1;
  }

  /** `portuguese_dict` of cyphers/src/algorithm/cryptanalysis.rs: a map
      from the upper-case letters to their percentage. */
  const UpperTable: map<char, nat> := map[
    'A' := 1463, 'B' := 104, 'C' := 388, 'D' := 499, 'E' := 1257, 'F' := 102,
    'G' := 130, 'H' := 128, 'I' := 618, 'J' := 40, 'K' := 2, 'L' := 278,
    'M' := 474, 'N' := 505, 'O' := 1073, 'P' := 252, 'Q' := 120, 'R' := 653,
    'S' := 781, 'T' := 434, 'U' := 463, 'V' := 167, 'W' := 1, 'X' := 21,
    'Y' := 1, 'Z' := 47
  ]

  /** The upper-case letter of a lower-case one, which matches the list's
      letters to the map's keys. */
  function Upper(c: char): (u: char)
    requires 'a' <= c <= 'z'
    ensures 'A' <= u <= 'Z'
    ensures u as int + 0x20 == c as int
  {
    (c as int - 0x20) as char
  }

  /** The map has exactly the 26 upper-case letters as keys. */
  lemma UpperTableKeys()
    ensures forall c :: c in UpperTable <==> 'A' <= c <= 'Z'
  {
  }

  /** The map agrees with the list letter for letter: both tables hold the
      same data. */
  lemma TablesAgree()
    ensures forall j :: 0 <= j < DictLen ==>
      'a' <= Letters[j].0 <= 'z' && Upper(Letters[j].0) in UpperTable &&
      UpperTable[Upper(Letters[j].0)] == Letters[j].1
  {
    LettersWellFormed();
    UpperTableKeys();
  }
}

=== FILE: errors.dfy ===
/** The failures the cipher operations report through `anyhow::Result`. */
module CipherErrors {

  datatype CipherError =
    /** The (transliterated) text has more bytes than the Vernam key. */
    | TextLongerThanKey(textLen: nat, keyLen: nat)
    /** A consumed Vernam key byte is not an alphabet symbol. */
    | UnsupportedKey
}

=== FILE: fixed_key.dfy ===
/** `Cryptanalysis::analyse` of cyphers/src/cryptanalysis.rs: the symbol
    histogram and ranking, the ranking set beside the dictionary, and then
    a Caesar decryption with a fixed key that ignores all of it. */
module PairingAnalysis {
  import opened Wrappers
  import opened Utils
  import opened CipherErrors
  import opened Frequencies
  import opened PortugueseDict
  import Cesar

  /** `predicted_key`. */
  const PredictedKey: uint8 := 17

  /** `to_ascii_lowercase`. */
  function ToAsciiLower(c: char): (l: char)
    ensures 'A' <= c <= 'Z' ==> l as int == c as int + 0x20
    ensures !('A' <= c <= 'Z') ==> l == c
  {
    if 'A' <= c <= 'Z' then (c as int + 0x20) as char else c
  }

  /** `(a as i32 - b as i32).abs()`: how far apart two code points are. */
  function Distance(a: char, b: char): (d: nat)
    ensures a as int + d == b as int || b as int + d == a as int
  {
    if a as int >= b as int then a as int - b as int else b as int - a as int
  }

  /** One row of the `zip` loop: the ranked symbol in lower case, the
      dictionary letter beside it, and the distance between their codes. */
  datatype Pairing = Pairing(sample: char, letter: char, distance: nat)

  /** The `zip` loop: the ranking and the dictionary side by side, as far as
      the shorter of the two goes. */
  function Pairings(ranking: seq<int>): (p: seq<Pairing>)
    requires forall i :: 0 <= i < |ranking| ==> 0 <= ranking[i] < AlphabetLen
    ensures |p| == if |ranking| < DictLen then |ranking| else DictLen
    ensures forall k :: 0 <= k < |p| ==> p[k].sample == ToAsciiLower(Alphabet[ranking[k]])
    ensures forall k :: 0 <= k < |p| ==> p[k].letter == Letters[k].0
    ensures forall k :: 0 <= k < |p| ==> (p[k].distance == 0 <==> p[k].sample == p[k].letter)
    ensures forall k :: 0 <= k < |p| ==> p[k].distance == Distance(p[k].sample, p[k].letter)
  {
    var n := if |ranking| < DictLen then |ranking| else DictLen;
    var p := seq(n, k requires 0 <= k < n => PairAt(ranking[k], k));
    assert forall k :: 0 <= k < n ==> p[k] == PairAt(ranking[k], k);
    p
  }

  /** Row `k` of the loop, for the symbol at alphabet position `sample`. */
  function PairAt(sample: SymbolIndex, k: nat): (p: Pairing)
    requires k < DictLen
    ensures p.sample == ToAsciiLower(Alphabet[sample]) && p.letter == Letters[k].0
    ensures p.distance == 0 <==> p.sample == p.letter
    ensures p.distance == Distance(p.sample, p.letter)
  {
    LettersWellFormed();
    var lowered := ToAsciiLower(Alphabet[sample]);
    var gap := lowered as int - Letters[k].0 as int;
    Pairing(lowered, Letters[k].0, if gap < 0 then -gap else gap)
  }

  /** `analyse`: the returned text is the Caesar decryption of the input
      with key 17, whatever the histogram; it never fails, keeps the length,
      and encrypting it again with key 17 gives the input back. */
  method Analyse(cypher: string)
    returns (buckets: seq<nat>, total: nat, ranking: seq<int>, pairs: seq<Pairing>,
             r: Result<string, CipherError>)
    ensures |buckets| == AlphabetLen
    ensures forall s :: 0 <= s < AlphabetLen ==> buckets[s] == multiset(cypher)[Alphabet[s]]
    ensures total == SymbolCount(cypher) == Sum(buckets)
    ensures multiset(ranking) == multiset(Range(AlphabetLen)) && Ranked(buckets, ranking)
    ensures |ranking| == AlphabetLen
    ensures |pairs| == DictLen
    ensures forall k :: 0 <= k < DictLen ==> pairs[k].letter == Letters[k].0
    ensures forall k :: 0 <= k < DictLen ==> pairs[k].sample == ToAsciiLower(Alphabet[ranking[k]])
    ensures forall k :: 0 <= k < DictLen ==> pairs[k].distance == Distance(pairs[k].sample, pairs[k].letter)
    ensures pairs == Pairings(ranking)
    ensures r == Cesar.Decrypt(cypher, PredictedKey)
    ensures r.Success? && |r.value| == |cypher|
    ensures Cesar.Encrypt(r.value, PredictedKey) == Success(cypher)
  {
    buckets, total := CountSymbols(cypher);
    ranking := Rank(buckets);
    assert |ranking| == |multiset(ranking)| == AlphabetLen;
    pairs := Pairings(ranking);
    r := Cesar.Decrypt(cypher, PredictedKey);
    Cesar.EncryptDecrypt(cypher, PredictedKey);
  }
}

/** The `AlgorithmStrategy` implementation of cyphers/src/algorithm/cryptanalysis.rs:
    the same histogram and ranking, then decryption with the fixed key. */
module StrategyAnalysis {
  import opened Wrappers
  import opened Utils
  import opened CipherErrors
  import opened Frequencies
  import Cesar

  /** `predicted_key`. */
  const PredictedKey: uint8 := 17

  /** `decrypt`: the ranking is printed, and the result is the Caesar
      decryption with key 17. */
  method Decrypt(cypher: string) returns (ranking: seq<int>, r: Result<string, CipherError>)
    ensures multiset(ranking) == multiset(Range(AlphabetLen))
    ensures exists buckets: seq<nat> ::
      && |buckets| == AlphabetLen
      && (forall s :: 0 <= s < AlphabetLen ==> buckets[s] == multiset(cypher)[Alphabet[s]])
      && Ranked(buckets, ranking)
    ensures r == Cesar.Decrypt(cypher, PredictedKey)
    ensures r.Success? && |r.value| == |cypher|
    ensures Cesar.Encrypt(r.value, PredictedKey) == Success(cypher)
  {
    var buckets, total := CountSymbols(cypher);
    ranking := Rank(buckets);
    r := Cesar.Decrypt(cypher, PredictedKey);
    Cesar.EncryptDecrypt(cypher, PredictedKey);
  }
}

=== FILE: frequencies.dfy ===
/** The histogram and ranking steps that all three analysers share
    (src/cryptanalysis.rs, cyphers/src/cryptanalysis.rs and
    cyphers/src/algorithm/cryptanalysis.rs). Frequencies are count / total
    for one fixed total, so ranking them is ranking the integer counts; the
    model keeps the counts. */
module Frequencies {
  import opened Utils

  function Sum(s: seq<int>): int {
    if s == [] then 0 else Sum(s[..|s| - 1]) + s[|s| - 1]
  }

  lemma {:induction false} SumZeros(n: nat)
    ensures Sum(seq(n, _ => 0)) == 0
  {
    if n > 0 {
      assert seq(n, _ => 0)[..n - 1] == seq(n - 1, _ => 0);
      SumZeros(n - 1);
    }
  }

  /** Adding one to a bucket adds one to the sum. */
  lemma {:induction false} SumIncrement(s: seq<int>, k: nat)
    requires k < |s|
    ensures Sum(s[k := s[k] + 1]) == Sum(s) + 1
  {
    var t := s[k := s[k] + 1];
    if k < |s| - 1 {
      assert t[..|t| - 1] == s[..|s| - 1][k := s[k] + 1];
      SumIncrement(s[..|s| - 1], k);
    } else {
      assert t[..|t| - 1] == s[..|s| - 1];
    }
  }

  /** No bucket holds more than all buckets together. */
  lemma {:induction false} ElementAtMostSum(s: seq<int>, k: nat)
    requires k < |s|
    requires forall i :: 0 <= i < |s| ==> s[i] >= 0
    ensures s[k] <= Sum(s)
  {
    if k < |s| - 1 {
      ElementAtMostSum(s[..|s| - 1], k);
    } else {
      SumNonNegative(s[..|s| - 1]);
    }
  }

  lemma {:induction false} SumNonNegative(s: seq<int>)
    requires forall i :: 0 <= i < |s| ==> s[i] >= 0
    ensures Sum(s) >= 0
  {
    if s != [] {
      SumNonNegative(s[..|s| - 1]);
    }
  }

  /** The number of alphabet symbols in a text. */
  function SymbolCount(text: string): nat {
    if text == [] then 0
    else SymbolCount(text[..|text| - 1]) + (if IsSymbol(text[|text| - 1]) then 1 else 0)
  }

  /** `*c as char`: each byte read as the Latin-1 character with that code. */
  function Latin1(bytes: seq<uint8>): (text: string)
    ensures |text| == |bytes|
    ensures forall i :: 0 <= i < |bytes| ==> text[i] as int == bytes[i]
  {
    seq(|bytes|, i requires 0 <= i < |bytes| => bytes[i] as char)
  }

  /** The `char_buckets` loop: one bucket per symbol, counting its
      occurrences, and `total_length`, the number of symbols seen. */
  method CountSymbols(text: string) returns (buckets: seq<nat>, total: nat)
    ensures |buckets| == AlphabetLen
    ensures forall s :: 0 <= s < AlphabetLen ==> buckets[s] == multiset(text)[Alphabet[s]]
    ensures total == SymbolCount(text)
    ensures total == Sum(buckets)
  {
    buckets := seq(AlphabetLen, _ => 0);
    SumZeros(AlphabetLen);
    total := 0;
    for i := 0 to |text|
      invariant |buckets| == AlphabetLen
      invariant forall s :: 0 <= s < AlphabetLen ==> buckets[s] == multiset(text[..i])[Alphabet[s]]
      invariant total == SymbolCount(text[..i])
      invariant total == Sum(buckets)
    {
      buckets, total := CountSymbol(text, i, buckets, total);
    }
    assert text[..|text|] == text;
  }

  /** One pass of the loop: the bucket of `text[i]`, if it is a symbol, and
      the total each go up by one. */
  method CountSymbol(text: string, i: nat, buckets: seq<nat>, total: nat)
    returns (next: seq<nat>, nextTotal: nat)
    requires i < |text| && |buckets| == AlphabetLen
    requires forall s :: 0 <= s < AlphabetLen ==> buckets[s] == multiset(text[..i])[Alphabet[s]]
    requires total == SymbolCount(text[..i]) && total == Sum(buckets)
    ensures |next| == AlphabetLen
    ensures forall s :: 0 <= s < AlphabetLen ==> next[s] == multiset(text[..i + 1])[Alphabet[s]]
    ensures nextTotal == SymbolCount(text[..i + 1]) && nextTotal == Sum(next)
  {
    SymbolStep(text, i);
    match IndexOf(text[i]) {
      case Some(pos) =>
        forall s | 0 <= s < AlphabetLen ensures Alphabet[s] == text[i] <==> s == pos {
          IndexOfSymbol(s);
        }
        SumIncrement(buckets, pos);
        next := buckets[pos := buckets[pos] + 1];
        nextTotal := total + 1;
      case None =>
        next, nextTotal := buckets, total;
    }
  }

  /** Reading one more character adds one occurrence of it, and one symbol
      when it is a symbol. */
  lemma SymbolStep(text: string, i: nat)
    requires i < |text|
    ensures forall c :: multiset(text[..i + 1])[c] == multiset(text[..i])[c] + (if c == text[i] then 1 else 0)
    ensures SymbolCount(text[..i + 1]) == SymbolCount(text[..i]) + (if IsSymbol(text[i]) then 1 else 0)
  {
    assert text[..i + 1] == text[..i] + [text[i]];
    assert text[..i + 1][..i] == text[..i];
  }

  /** The `char_buckets_unbounded` loop: one bucket per byte value; the
      buckets add up to the input length. */
  method CountBytes(bytes: seq<uint8>) returns (buckets: seq<nat>, total: nat)
    ensures |buckets| == 0x100
    ensures forall b: uint8 :: buckets[b] == multiset(bytes)[b]
    ensures total == |bytes|
    ensures total == Sum(buckets)
  {
    buckets := seq(0x100, _ => 0);
    SumZeros(0x100);
    total := 0;
    for i := 0 to |bytes|
      invariant |buckets| == 0x100
      invariant forall b: uint8 :: buckets[b] == multiset(bytes[..i])[b]
      invariant total == i
      invariant total == Sum(buckets)
    {
      assert bytes[..i + 1] == bytes[..i] + [bytes[i]];
      SumIncrement(buckets, bytes[i]);
      buckets := buckets[bytes[i] := buckets[bytes[i]] + 1];
      total := total + 1;
    }
    assert bytes[..|bytes|] == bytes;
  }

  /** Bucket `a` comes before bucket `b`: a larger count, or an equal count
      and a smaller index. */
  predicate Before(counts: seq<int>, a: int, b: int)
    requires 0 <= a < |counts| && 0 <= b < |counts|
  {
    counts[a] > counts[b] || (counts[a] == counts[b] && a < b)
  }

  predicate Indices(counts: seq<int>, xs: seq<int>) {
    forall i :: 0 <= i < |xs| ==> 0 <= xs[i] < |counts|
  }

  /** Ordered by non-increasing count, equal counts in ascending index. */
  predicate Ranked(counts: seq<int>, xs: seq<int>) {
    && Indices(counts, xs)
    && forall i, j :: 0 <= i < j < |xs| ==> Before(counts, xs[i], xs[j])
  }

  predicate Increasing(xs: seq<int>) {
    forall i, j :: 0 <= i < j < |xs| ==> xs[i] < xs[j]
  }

  function Range(n: nat): (r: seq<int>)
    ensures |r| == n
    ensures forall i :: 0 <= i < n ==> r[i] == i
  {
    seq(n, i => i)
  }

  /** Insertion of a bucket that came later in the input than every bucket
      already placed: it goes after every bucket with an equal or larger
      count, which is what makes the sort stable. */
  function Insert(counts: seq<int>, x: int, sorted: seq<int>): (r: seq<int>)
    requires 0 <= x < |counts|
    requires Ranked(counts, sorted)
    requires forall k :: 0 <= k < |sorted| ==> sorted[k] < x
    ensures multiset(r) == multiset(sorted) + multiset{x}
    ensures Ranked(counts, r)
  {
    if sorted == [] then [x]
    else if counts[sorted[0]] >= counts[x] then
      var rest := Insert(counts, x, sorted[1..]);
      assert sorted == [sorted[0]] + sorted[1..];
      HeadStaysFirst(counts, sorted, x, rest);
      [sorted[0]] + rest
    else
      [x] + sorted
  }

  /** Any arrangement of the earlier elements of an increasing sequence
      stays below its last element. */
  lemma EarlierBelowLast(xs: seq<int>, prefix: seq<int>)
    requires xs != [] && Increasing(xs)
    requires multiset(prefix) == multiset(xs[..|xs| - 1])
    ensures forall k :: 0 <= k < |prefix| ==> prefix[k] < xs[|xs| - 1]
  {
    forall k | 0 <= k < |prefix| ensures prefix[k] < xs[|xs| - 1] {
      assert prefix[k] in multiset(xs[..|xs| - 1]);
    }
  }

  /** The head of a ranked sequence still comes first once a later bucket
      with no larger count has been inserted behind it. */
  lemma HeadStaysFirst(counts: seq<int>, sorted: seq<int>, x: int, rest: seq<int>)
    requires 0 <= x < |counts| && sorted != []
    requires Ranked(counts, sorted)
    requires forall k :: 0 <= k < |sorted| ==> sorted[k] < x
    requires counts[sorted[0]] >= counts[x]
    requires multiset(rest) == multiset(sorted[1..]) + multiset{x}
    requires Ranked(counts, rest)
    ensures Ranked(counts, [sorted[0]] + rest)
  {
    forall k | 0 <= k < |rest| ensures Before(counts, sorted[0], rest[k]) {
      assert rest[k] in multiset(rest);
      if rest[k] != x {
        assert rest[k] in multiset(sorted[1..]);
        var m :| 0 <= m < |sorted[1..]| && sorted[1..][m] == rest[k];
        assert sorted[m + 1] == rest[k];
      }
    }
    var r := [sorted[0]] + rest;
    forall i, j | 0 <= i < j < |r| ensures Before(counts, r[i], r[j]) {
      if i > 0 {
        assert r[i] == rest[i - 1] && r[j] == rest[j - 1];
      }
    }
  }

  /** `sort_by` with the comparison reversed: a stable sort by descending
      count of buckets listed in ascending index order. */
  function StableSortDesc(counts: seq<int>, xs: seq<int>): (r: seq<int>)
    requires Indices(counts, xs)
    requires Increasing(xs)
    ensures multiset(r) == multiset(xs)
    ensures Ranked(counts, r)
  {
    if xs == [] then []
    else
      var init := xs[..|xs| - 1];
      var prefix := StableSortDesc(counts, init);
      EarlierBelowLast(xs, prefix);
      assert xs == init + [xs[|xs| - 1]];
      Insert(counts, xs[|xs| - 1], prefix)
  }

  /** `sorted_freqs`: every bucket index, ranked. */
  function Rank(counts: seq<int>): (r: seq<int>)
    ensures multiset(r) == multiset(Range(|counts|))
    ensures Ranked(counts, r)
  {
    StableSortDesc(counts, Range(|counts|))
  }

  /** A ranked sequence never repeats a bucket. */
  lemma RankedDistinct(counts: seq<int>, xs: seq<int>)
    requires Ranked(counts, xs)
    ensures forall i, j :: 0 <= i < j < |xs| ==> xs[i] != xs[j]
  {
  }

  /** Two ranked arrangements of the same buckets start with the same one. */
  lemma RankedHeads(counts: seq<int>, a: seq<int>, b: seq<int>)
    requires Ranked(counts, a) && Ranked(counts, b)
    requires multiset(a) == multiset(b)
    requires a != []
    ensures b != [] && a[0] == b[0]
  {
    assert a[0] in multiset(b);
    var j :| 0 <= j < |b| && b[j] == a[0];
    assert b[0] in multiset(a);
    var k :| 0 <= k < |a| && a[k] == b[0];
  }

  lemma TailMultiset(a: seq<int>)
    requires a != []
    ensures multiset(a[1..]) == multiset(a) - multiset{a[0]}
  {
    assert a == [a[0]] + a[1..];
  }

  /** There is only one ranked arrangement of a given collection of buckets:
      any permutation ordered by count, ties by index, is the stable sort's
      output. */
  lemma {:induction false} RankedUnique(counts: seq<int>, a: seq<int>, b: seq<int>)
    requires Ranked(counts, a) && Ranked(counts, b)
    requires multiset(a) == multiset(b)
    ensures a == b
  {
    if a == [] {
      assert |b| == |multiset(b)| == 0;
    } else {
      RankedHeads(counts, a, b);
      TailMultiset(a);
      TailMultiset(b);
      RankedUnique(counts, a[1..], b[1..]);
      assert a == [a[0]] + a[1..] && b == [b[0]] + b[1..];
    }
  }

  /** The ranking is the one permutation of the bucket indices that is
      ordered by non-increasing count with ties in ascending index. */
  lemma RankCharacterised(counts: seq<int>, r: seq<int>)
    ensures (multiset(r) == multiset(Range(|counts|)) && Ranked(counts, r)) <==> r == Rank(counts)
  {
    if multiset(r) == multiset(Range(|counts|)) && Ranked(counts, r) {
      RankedUnique(counts, r, Rank(counts));
    }
  }
}

=== FILE: strategy.dfy ===
/** The cipher strategies behind one encrypt/decrypt interface
    (cyphers/src/algorithm/mod.rs): an `enum_dispatch` over Cesar and Vernam. */
module Strategy {
  import opened Wrappers
  import opened Utils
  import opened CipherErrors
  import Cesar
  import Vernam

  datatype Algorithm = Cesar(shift: uint8) | Vernam(pad: seq<uint8>)

  /** `AlgorithmStrategy::encrypt` of the chosen variant: Caesar always
      succeeds, and a success keeps the text's length. */
  function Encrypt(algorithm: Algorithm, message: string): (r: Result<string, CipherError>)
    ensures algorithm.Cesar? ==> r.Success?
    ensures r.Success? ==> |r.value| == |message|
  {
    match algorithm
    case Cesar(shift) => Cesar.Encrypt(message, shift)
    case Vernam(pad) => Vernam.Encrypt(message, pad)
  }

  /** `AlgorithmStrategy::decrypt` of the chosen variant, with the same
      guarantees. */
  function Decrypt(algorithm: Algorithm, cypher: string): (r: Result<string, CipherError>)
    ensures algorithm.Cesar? ==> r.Success?
    ensures r.Success? ==> |r.value| == |cypher|
  {
    match algorithm
    case Cesar(shift) => Cesar.Decrypt(cypher, shift)
    case Vernam(pad) => Vernam.Decrypt(cypher, pad)
  }

  /** Whichever strategy is chosen, decrypting a successful encryption with
      the same key gives the message back; only Vernam can fail at all. */
  lemma RoundTrip(algorithm: Algorithm, message: string)
    ensures algorithm.Cesar? ==> Encrypt(algorithm, message).Success?
    ensures Encrypt(algorithm, message).Success? ==>
      Decrypt(algorithm, Encrypt(algorithm, message).value) == Success(message)
  {
    match algorithm
    case Cesar(shift) => Cesar.DecryptEncrypt(message, shift);
    case Vernam(pad) =>
      if Encrypt(algorithm, message).Success? {
        Vernam.DecryptEncrypt(message, pad);
      }
  }
}

=== FILE: utils.dfy ===
/** The 62-symbol alphabet, the ring shift `roll` built on it, and the
    Vernam key generator (src/utils.rs). */
module Utils {
  import opened Wrappers

  /** Rust's `u8` and `i32`, as ranges of the unbounded integers. */
  type uint8 = x: int | 0 <= x < 0x100
  type int32 = x: int | -0x8000_0000 <= x < 0x8000_0000

  /** ALPHANUM_CHARS_LEN. */
  const AlphabetLen: nat := 62

  /** A position in the alphabet. */
  type SymbolIndex = i: int | 0 <= i < 62

  /** The symbol at position `i`: digits, then upper-case, then lower-case letters. */
  function SymbolChar(i: SymbolIndex): char {
    if i < 10 then ('0' as int + i) as char
    else if i < 36 then ('A' as int + (i - 10)) as char
    else ('a' as int + (i - 36)) as char
  }

  function AlphanumChars(): string {
    seq(AlphabetLen, i requires 0 <= i < AlphabetLen => SymbolChar(i))
  }

  /** ALPHANUM_CHARS. */
  const Alphabet: string := AlphanumChars()

  predicate IsSymbol(c: char) {
    c in Alphabet
  }

  /** `Alphabet` is `ALPHANUM_CHARS`, character for character (written
      here in its three runs). */
  lemma AlphabetIsAlphanumChars()
    ensures Alphabet == "0123456789" + "ABCDEFGHIJKLMNOPQRSTUVWXYZ" + "abcdefghijklmnopqrstuvwxyz"
  {
    var digits, upper, lower := "0123456789", "ABCDEFGHIJKLMNOPQRSTUVWXYZ", "abcdefghijklmnopqrstuvwxyz";
    forall i | 0 <= i < 10 ensures digits[i] == SymbolChar(i) { }
    forall i | 0 <= i < 26 ensures upper[i] == SymbolChar(i + 10) { }
    forall i | 0 <= i < 26 ensures lower[i] == SymbolChar(i + 36) { }
    assert Alphabet == digits + upper + lower;
  }

  lemma AlphabetAt(i: SymbolIndex)
    ensures |Alphabet| == AlphabetLen
    ensures Alphabet[i] == SymbolChar(i)
  {
  }

  /** `ALPHANUM_CHARS.find(c)`: the position of the first occurrence of `c`,
      or None when `c` is not a symbol. */
  function IndexOf(c: char): (r: Option<SymbolIndex>)
    ensures r.None? <==> !IsSymbol(c)
    ensures r.Some? ==> Alphabet[r.value] == c
    ensures r.Some? ==> forall j :: 0 <= j < r.value ==> Alphabet[j] != c
  {
    forall i: SymbolIndex {
      AlphabetAt(i);
    }
    if '0' <= c <= '9' then
      var i := c as int - '0' as int;
      AlphabetAt(i);
      Some(i)
    else if 'A' <= c <= 'Z' then
      var i := c as int - 'A' as int + 10;
      AlphabetAt(i);
      Some(i)
    else if 'a' <= c <= 'z' then
      var i := c as int - 'a' as int + 36;
      AlphabetAt(i);
      Some(i)
    else
      None
  }

  /** Every position holds a different symbol, so `IndexOf` inverts indexing. */
  lemma IndexOfSymbol(i: SymbolIndex)
    ensures IndexOf(Alphabet[i]) == Some(i)
  {
  }

  /** Every symbol is an ASCII letter or digit. */
  lemma SymbolIsAscii(c: char)
    requires IsSymbol(c)
    ensures c as int < 0x80
  {
  }

  /** Rust's `%` by ALPHANUM_CHARS_LEN on a signed integer: truncating
      division, so the remainder takes the sign of the dividend (Dafny's `%`
      is Euclidean and never negative). */
  function TruncRem(a: int): (r: int)
    ensures a >= 0 ==> r == a % AlphabetLen
    ensures a < 0 ==> -(AlphabetLen as int) < r <= 0
    ensures (a - r) % AlphabetLen == 0
  {
    if a >= 0 then a % AlphabetLen else -((-a) % AlphabetLen)
  }

  /** Numbers that differ by a multiple of 62 have the same residue. */
  lemma ModCongruent(x: int, y: int)
    requires (x - y) % AlphabetLen == 0
    ensures x % AlphabetLen == y % AlphabetLen
  {
    var k := (x - y) / AlphabetLen;
    assert x == y + AlphabetLen * k;
  }

  /** Shifting a residue forward and back again returns it. */
  lemma ResidueAddSub(m: SymbolIndex, k: int)
    ensures ((m + k) % AlphabetLen - k) % AlphabetLen == m
  {
    ModCongruent((m + k) % AlphabetLen - k, m);
  }

  /** Shifting by the same amount keeps different residues apart. */
  lemma ShiftSeparates(a: SymbolIndex, b: SymbolIndex, k: int)
    requires a != b
    ensures (a + k) % AlphabetLen != (b + k) % AlphabetLen
  {
    ResidueAddSub(a, k);
    ResidueAddSub(b, k);
  }

  /** The index arithmetic of `roll`: every intermediate value is an `i32`,
      and the final index lies in 0..62, so neither the arithmetic nor the
      `expect` can panic. The result is the mathematical residue of
      index + amount, whatever the sign of `amount`. */
  function ShiftIndex(index: SymbolIndex, amount: int32): (out: SymbolIndex)
    ensures out == (index + amount) % AlphabetLen
  {
    var key: int32 := TruncRem(amount);
    var sum: int32 := index + AlphabetLen + key;
    var q := (amount - key) / AlphabetLen;
    assert amount - key == AlphabetLen * q;
    ModCongruent(sum, index + amount);
    TruncRem(sum)
  }

  /** `roll`: rotate a symbol's index by `amount` around the ring of 62
      symbols; None for a character outside the alphabet. */
  function Roll(c: char, amount: int32): (r: Option<char>)
    ensures r.None? <==> !IsSymbol(c)
    ensures r.Some? ==> IsSymbol(r.value)
    ensures r.Some? ==> IndexOf(r.value) == Some((IndexOf(c).value + amount) % AlphabetLen)
  {
    match IndexOf(c)
    case None => None
    case Some(index) =>
      var outIndex := ShiftIndex(index, amount);
      IndexOfSymbol(outIndex);
      Some(Alphabet[outIndex])
  }

  /** How the ciphers use `roll`: a non-symbol is kept as it is. */
  function RollOrKeep(c: char, amount: int32): (r: char)
    ensures IsSymbol(r) <==> IsSymbol(c)
    ensures !IsSymbol(c) ==> r == c
    ensures IsSymbol(c) ==> IndexOf(r) == Some((IndexOf(c).value + amount) % AlphabetLen)
  {
    Roll(c, amount).GetOr(c)
  }

  /** A symbol is determined by its index. */
  lemma SameIndexSameSymbol(x: char, y: char)
    requires IsSymbol(x) && IsSymbol(y)
    requires IndexOf(x) == IndexOf(y)
    ensures x == y
  {
  }

  lemma RollZero(c: char)
    requires IsSymbol(c)
    ensures Roll(c, 0) == Some(c)
  {
    SameIndexSameSymbol(Roll(c, 0).value, c);
  }

  /** Rolling back by the negated amount restores the symbol. */
  lemma RollInverse(c: char, amount: int32)
    requires IsSymbol(c)
    requires amount != -0x8000_0000
    ensures Roll(Roll(c, amount).value, -amount) == Some(c)
  {
    var i := IndexOf(c).value;
    var r1 := Roll(c, amount).value;
    assert IndexOf(r1) == Some((i + amount) % AlphabetLen);
    var r2 := Roll(r1, -amount).value;
    assert IndexOf(r2) == Some((IndexOf(r1).value + -amount) % AlphabetLen);
    ResidueAddSub(i, amount);
    assert IndexOf(r2) == Some(i);
    SameIndexSameSymbol(r2, c);
  }

  /** For a fixed amount no two symbols land on the same symbol. */
  lemma RollInjective(c1: char, c2: char, amount: int32)
    requires IsSymbol(c1) && IsSymbol(c2)
    requires Roll(c1, amount) == Roll(c2, amount)
    ensures c1 == c2
  {
    var i1, i2 := IndexOf(c1).value, IndexOf(c2).value;
    var r1, r2 := Roll(c1, amount).value, Roll(c2, amount).value;
    assert IndexOf(r1) == Some((i1 + amount) % AlphabetLen);
    assert IndexOf(r2) == Some((i2 + amount) % AlphabetLen);
    assert r1 == r2;
    ResidueAddSub(i1, amount);
    ResidueAddSub(i2, amount);
    assert i1 == i2;
    SameIndexSameSymbol(c1, c2);
  }

  /** ... and every symbol is reached, so `roll` is a bijection on the alphabet. */
  lemma RollSurjective(d: char, amount: int32)
    requires IsSymbol(d)
    ensures exists c :: IsSymbol(c) && Roll(c, amount) == Some(d)
  {
    var j := IndexOf(d).value;
    var i: SymbolIndex := (j - amount) % AlphabetLen;
    var c := Alphabet[i];
    IndexOfSymbol(i);
    ModCongruent(i + amount, j);
    assert (i + amount) % AlphabetLen == j;
    var r := Roll(c, amount).value;
    assert IndexOf(r) == Some((IndexOf(c).value + amount) % AlphabetLen);
    SameIndexSameSymbol(r, d);
    assert IsSymbol(c) && Roll(c, amount) == Some(d);
  }

  /** Only the amount modulo 62 matters. */
  lemma RollCongruent(c: char, a: int32, b: int32)
    requires (a - b) % AlphabetLen == 0
    ensures Roll(c, a) == Roll(c, b)
  {
    if IsSymbol(c) {
      var i := IndexOf(c).value;
      ModCongruent(i + a, i + b);
      SameIndexSameSymbol(Roll(c, a).value, Roll(c, b).value);
    }
  }

  /** `generate_vernam_key`: the random generator is a parameter; `draws`
      holds the indices it drew from 0..62, one per key byte. */
  function GenerateVernamKey(draws: seq<SymbolIndex>): (key: seq<uint8>)
    ensures |key| == |draws|
    ensures forall i :: 0 <= i < |key| ==> IndexOf(key[i] as char) == Some(draws[i])
  {
    seq(|draws|, i requires 0 <= i < |draws| => SymbolByte(draws[i]))
  }

  /** The byte of the symbol at position `i` (`char as u8`, exact for ASCII). */
  function SymbolByte(i: SymbolIndex): (b: uint8)
    ensures IndexOf(b as char) == Some(i)
  {
    IndexOfSymbol(i);
    SymbolIsAscii(Alphabet[i]);
    Alphabet[i] as int
  }
}

=== FILE: vernam.dfy ===
/** The Vernam one-time pad over the 62-symbol ring
    (cyphers/src/algorithm/vernam.rs). The text given to each operation is
    the transliterated text; the transliteration step itself is not modelled. */
module Vernam {
  import opened Wrappers
  import opened Utils
  import opened CipherErrors

  /** Bytes in the UTF-8 encoding of one character. */
  function Utf8Width(c: char): nat {
    if c as int < 0x80 then 1
    else if c as int < 0x800 then 2
    else if c as int < 0x1_0000 then 3
    else 4
  }

  /** `str::len`: the length of a text in UTF-8 bytes, which is what the
      length check compares with the key. */
  function Utf8Len(s: string): (n: nat)
    ensures n >= |s|
  {
    if s == [] then 0 else Utf8Width(s[0]) + Utf8Len(s[1..])
  }

  /** An ASCII text has one byte per character. */
  lemma {:induction false} Utf8LenAscii(s: string)
    requires forall i :: 0 <= i < |s| ==> s[i] as int < 0x80
    ensures Utf8Len(s) == |s|
  {
    if s != [] {
      Utf8LenAscii(s[1..]);
    }
  }

  /** Texts whose characters pairwise have the same width have the same length. */
  lemma {:induction false} Utf8LenPointwise(a: string, b: string)
    requires |a| == |b|
    requires forall i :: 0 <= i < |a| ==> Utf8Width(a[i]) == Utf8Width(b[i])
    ensures Utf8Len(a) == Utf8Len(b)
  {
    if a != [] {
      Utf8LenPointwise(a[1..], b[1..]);
    }
  }

  /** `ALPHANUM_CHARS.find(*k as char)`: a key byte read as a Latin-1 character. */
  function KeyIndex(b: uint8): (r: Option<SymbolIndex>)
    ensures r.Some? <==> IsSymbol(b as char)
    ensures r.Some? ==> Alphabet[r.value] as int == b
  {
    IndexOf(b as char)
  }

  /** The first `n` key bytes are all alphabet symbols. */
  predicate KeySymbols(key: seq<uint8>, n: nat)
    requires n <= |key|
  {
    forall i :: 0 <= i < n ==> KeyIndex(key[i]).Some?
  }

  /** One step of the loops: the text character rolled forward (or, when
      decrypting, backward) by the key symbol's index. */
  function Step(c: char, k: SymbolIndex, decrypting: bool): char {
    RollOrKeep(c, if decrypting then -(k as int) else k)
  }

  /** The `zip` loop shared by both directions: text and key are consumed in
      lockstep, and the first key byte that is not a symbol ends the loop
      with "Unsupported key". */
  function Lockstep(text: string, key: seq<uint8>, decrypting: bool): (r: Result<string, CipherError>)
    requires |key| >= |text|
    ensures r.Success? <==> KeySymbols(key, |text|)
    ensures r.Failure? ==> r.error == UnsupportedKey
    ensures r.Success? ==> |r.value| == |text|
    ensures r.Success? ==> forall i :: 0 <= i < |text| ==>
      r.value[i] == Step(text[i], KeyIndex(key[i]).value, decrypting)
  {
    if text == [] then Success([])
    else
      match KeyIndex(key[0])
      case None => Failure(UnsupportedKey)
      case Some(k) =>
        var rest :- Lockstep(text[1..], key[1..], decrypting);
        Success([Step(text[0], k, decrypting)] + rest)
  }

  /** `Vernam::encrypt`: fails when the text has more bytes than the key,
      or when one of the key bytes it consumes is not a symbol; otherwise
      position i holds the message character rolled forward by the index of
      key byte i, non-symbols being copied. */
  function Encrypt(message: string, key: seq<uint8>): (r: Result<string, CipherError>)
    ensures r == Failure(TextLongerThanKey(Utf8Len(message), |key|)) <==> Utf8Len(message) > |key|
    ensures Utf8Len(message) <= |key| ==> (r.Success? <==> KeySymbols(key, |message|))
    ensures Utf8Len(message) <= |key| && r.Failure? ==> r.error == UnsupportedKey
    ensures r.Success? ==> |r.value| == |message|
    ensures r.Success? ==> forall i :: 0 <= i < |message| && !IsSymbol(message[i]) ==>
      r.value[i] == message[i]
    ensures r.Success? ==> forall i :: 0 <= i < |message| && IsSymbol(message[i]) ==>
      IndexOf(r.value[i]) == Some((IndexOf(message[i]).value + KeyIndex(key[i]).value) % AlphabetLen)
  {
    if Utf8Len(message) > |key| then Failure(TextLongerThanKey(Utf8Len(message), |key|))
    else Lockstep(message, key, false)
  }

  /** `Vernam::decrypt`: the same checks; each symbol is rolled backward by
      the index of its key byte. */
  function Decrypt(cypher: string, key: seq<uint8>): (r: Result<string, CipherError>)
    ensures r == Failure(TextLongerThanKey(Utf8Len(cypher), |key|)) <==> Utf8Len(cypher) > |key|
    ensures Utf8Len(cypher) <= |key| ==> (r.Success? <==> KeySymbols(key, |cypher|))
    ensures Utf8Len(cypher) <= |key| && r.Failure? ==> r.error == UnsupportedKey
    ensures r.Success? ==> |r.value| == |cypher|
    ensures r.Success? ==> forall i :: 0 <= i < |cypher| && !IsSymbol(cypher[i]) ==>
      r.value[i] == cypher[i]
    ensures r.Success? ==> forall i :: 0 <= i < |cypher| && IsSymbol(cypher[i]) ==>
      IndexOf(r.value[i]) == Some((IndexOf(cypher[i]).value - KeyIndex(key[i]).value) % AlphabetLen)
  {
    if Utf8Len(cypher) > |key| then Failure(TextLongerThanKey(Utf8Len(cypher), |key|))
    else Lockstep(cypher, key, true)
  }

  /** A step never changes a character's UTF-8 width: symbols are ASCII and
      everything else is copied. */
  lemma StepWidth(c: char, k: SymbolIndex, decrypting: bool)
    ensures Utf8Width(Step(c, k, decrypting)) == Utf8Width(c)
    ensures IsSymbol(Step(c, k, decrypting)) <==> IsSymbol(c)
  {
    if IsSymbol(c) {
      SymbolIsAscii(c);
      SymbolIsAscii(Step(c, k, decrypting));
    }
  }

  /** Stepping back with the same key symbol restores the character. */
  lemma StepInverse(c: char, k: SymbolIndex, decrypting: bool)
    ensures Step(Step(c, k, decrypting), k, !decrypting) == c
  {
    if IsSymbol(c) {
      if decrypting {
        RollInverse(c, -(k as int));
      } else {
        RollInverse(c, k);
      }
    }
  }

  /** What one direction produces, the other direction, under the same key,
      turns back into the original text. */
  lemma LockstepInverse(text: string, key: seq<uint8>, decrypting: bool)
    requires Utf8Len(text) <= |key|
    requires Lockstep(text, key, decrypting).Success?
    ensures Utf8Len(Lockstep(text, key, decrypting).value) == Utf8Len(text)
    ensures Lockstep(Lockstep(text, key, decrypting).value, key, !decrypting) == Success(text)
  {
    var out := Lockstep(text, key, decrypting).value;
    forall i | 0 <= i < |text| ensures Utf8Width(out[i]) == Utf8Width(text[i]) {
      StepWidth(text[i], KeyIndex(key[i]).value, decrypting);
    }
    Utf8LenPointwise(out, text);
    var back := Lockstep(out, key, !decrypting).value;
    forall i | 0 <= i < |text| ensures back[i] == text[i] {
      StepInverse(text[i], KeyIndex(key[i]).value, decrypting);
    }
    assert back == text;
  }

  /** Decryption undoes a successful encryption under the same key. */
  lemma DecryptEncrypt(message: string, key: seq<uint8>)
    requires Encrypt(message, key).Success?
    ensures Decrypt(Encrypt(message, key).value, key) == Success(message)
  {
    LockstepInverse(message, key, false);
  }

  /** Encryption undoes a successful decryption under the same key. */
  lemma EncryptDecrypt(cypher: string, key: seq<uint8>)
    requires Decrypt(cypher, key).Success?
    ensures Encrypt(Decrypt(cypher, key).value, key) == Success(cypher)
  {
    LockstepInverse(cypher, key, true);
  }

  /** The loop reads only the key bytes it pairs with text characters. */
  lemma {:induction false} LockstepIgnoresKeyTail(text: string, key: seq<uint8>, extra: seq<uint8>, decrypting: bool)
    requires |key| >= |text|
    ensures Lockstep(text, key + extra, decrypting) == Lockstep(text, key, decrypting)
  {
    if text != [] {
      assert (key + extra)[1..] == key[1..] + extra;
      LockstepIgnoresKeyTail(text[1..], key[1..], extra, decrypting);
    }
  }

  /** Once the key is long enough, key bytes past the text never affect the
      outcome, not even when they are not symbols. */
  lemma KeyTailIgnored(text: string, key: seq<uint8>, extra: seq<uint8>)
    requires Utf8Len(text) <= |key|
    ensures Encrypt(text, key + extra) == Encrypt(text, key)
    ensures Decrypt(text, key + extra) == Decrypt(text, key)
  {
    LockstepIgnoresKeyTail(text, key, extra, false);
    LockstepIgnoresKeyTail(text, key, extra, true);
  }

  /** A key from `generate_vernam_key` with at least as many bytes as the
      message always encrypts it, and decrypts the result back. */
  lemma GeneratedKeyWorks(message: string, draws: seq<SymbolIndex>)
    requires Utf8Len(message) <= |draws|
    ensures Encrypt(message, GenerateVernamKey(draws)).Success?
    ensures Decrypt(Encrypt(message, GenerateVernamKey(draws)).value, GenerateVernamKey(draws)) == Success(message)
  {
    DecryptEncrypt(message, GenerateVernamKey(draws));
  }

  /** A symbol's image under one encryption step, by its code point. */
  lemma StepImage(c: char, k: SymbolIndex)
    requires IsSymbol(c)
    ensures Step(c, k, false) == SymbolChar((IndexOf(c).value + k) % AlphabetLen)
  {
    AlphabetAt((IndexOf(c).value + k) % AlphabetLen);
  }

  lemma Encrypts(message: string, key: seq<uint8>, expected: string)
    requires |message| == |expected| <= |key|
    requires forall i :: 0 <= i < |message| ==>
      && IndexOf(message[i]).Some? && KeyIndex(key[i]).Some?
      && SymbolChar((IndexOf(message[i]).value + KeyIndex(key[i]).value) % AlphabetLen) == expected[i]
    ensures Encrypt(message, key) == Success(expected)
  {
    forall i | 0 <= i < |message| ensures message[i] as int < 0x80 {
      SymbolIsAscii(message[i]);
    }
    Utf8LenAscii(message);
    var r := Encrypt(message, key).value;
    forall i | 0 <= i < |message| ensures r[i] == expected[i] {
      StepImage(message[i], KeyIndex(key[i]).value);
    }
    assert r == expected;
  }

  /** The unit tests' expectations; the decryptions follow from the round trip. */
  lemma EncryptSimple()
    ensures Encrypt("ABCDE", [0x31, 0x32, 0x33, 0x34, 0x35]) == Success("BDFHJ")
  {
    Encrypts("ABCDE", [0x31, 0x32, 0x33, 0x34, 0x35], "BDFHJ");
  }

  lemma DecryptSimple()
    ensures Decrypt("BDFHJ", [0x31, 0x32, 0x33, 0x34, 0x35]) == Success("ABCDE")
  {
    EncryptSimple();
    DecryptEncrypt("ABCDE", [0x31, 0x32, 0x33, 0x34, 0x35]);
  }

  /** A key mixing lower-case letters and digits. */
  lemma EncryptMixed()
    ensures Encrypt("HELLO", [0x61, 0x62, 0x63, 0x36, 0x39]) == Success("rpxRX")
  {
    var key: seq<uint8> := [0x61, 0x62, 0x63, 0x36, 0x39];
    assert KeyIndex(key[0]) == Some(36) && KeyIndex(key[1]) == Some(37) && KeyIndex(key[2]) == Some(38);
    assert KeyIndex(key[3]) == Some(6) && KeyIndex(key[4]) == Some(9);
    Encrypts("HELLO", key, "rpxRX");
  }

  lemma DecryptMixed()
    ensures Decrypt("rpxRX", [0x61, 0x62, 0x63, 0x36, 0x39]) == Success("HELLO")
  {
    EncryptMixed();
    DecryptEncrypt("HELLO", [0x61, 0x62, 0x63, 0x36, 0x39]);
  }
}

=== FILE: voting.dfy ===
/** `analyse` of src/cryptanalysis.rs: the symbol histogram and its
    ranking, the raw-byte histogram and its ranking, and the windowed vote
    that turns the ranking into an ordered list of candidate Caesar shifts.
    The function returns nothing and prints its tables; the model returns
    what it prints, as a `Report`. */
module VotingAnalysis {
  import opened Utils
  import opened Frequencies
  import opened PortugueseDict
  import Cesar

  /** The alphabet position of dictionary letter `j`
      (`ALPHANUM_CHARS.find(*dict_char).unwrap()`): a lower-case letter. */
  function LetterIndex(j: nat): (r: SymbolIndex)
    requires j < DictLen
    ensures Alphabet[r] == Letters[j].0
    ensures 36 <= r
  {
    LettersWellFormed();
    var r := IndexOf(Letters[j].0).value;
    AlphabetIsAlphanumChars();
    r
  }

  /** Different dictionary entries sit at different alphabet positions. */
  lemma LetterIndexInjective(j: nat, k: nat)
    requires j < DictLen && k < DictLen && j != k
    ensures LetterIndex(j) != LetterIndex(k)
  {
    LettersWellFormed();
    if j < k {
      assert Letters[j].0 != Letters[k].0;
    } else {
      assert Letters[k].0 != Letters[j].0;
    }
  }

  /** `start_index`: three entries back, or the head of the list when
      there are fewer than three entries before `i`. */
  function WindowStart(i: nat): (s: nat)
    ensures s <= i && i - s <= 3
    ensures s > 0 <==> i > 3
    ensures s > 0 ==> s + 3 == i
  {
    if i > 2 then i - 3 else 0
  }

  /** `end_index`: `min(i + 3, dict.len())`, so the slice stops two entries
      past `i`, or at the end of the list. */
  function WindowEnd(i: nat): (e: nat)
    ensures e <= DictLen && e <= i + 3
    ensures e == i + 3 || e == DictLen
  {
    if i + 3 < DictLen then i + 3 else DictLen
  }

  /** Rank `i` is compared with the dictionary entries `i - 3 .. i + 2`,
      clipped to the list: a slice that always contains entry `i` itself
      and never more than six entries. */
  lemma WindowBounds(i: nat)
    requires i < DictLen
    ensures WindowStart(i) <= i < WindowEnd(i) <= DictLen
    ensures WindowEnd(i) - WindowStart(i) <= 6
  {
  }

  /** `diff`: the shift that carries the dictionary letter at alphabet
      position `letter` onto the ranked symbol at `sample`. The dividend is
      positive, so Rust's truncating `%` gives the residue. */
  function VoteShift(sample: SymbolIndex, letter: SymbolIndex): (d: SymbolIndex)
    ensures (letter + d) % AlphabetLen == sample
  {
    TruncRem(sample - letter + AlphabetLen)
  }

  /** ... and it is the only shift in 0..62 that does. */
  lemma VoteShiftUnique(sample: SymbolIndex, letter: SymbolIndex, e: SymbolIndex)
    requires (letter + e) % AlphabetLen == sample
    ensures e == VoteShift(sample, letter)
  {
    ResidueAddSub(e, letter);
    ResidueAddSub(VoteShift(sample, letter), letter);
  }

  /** A vote is the Caesar key that encrypts the dictionary letter into the
      ranked symbol. */
  lemma VoteIsCaesarKey(sample: SymbolIndex, letter: SymbolIndex)
    ensures Cesar.EncryptChar(Alphabet[letter], VoteShift(sample, letter)) == Alphabet[sample]
  {
    IndexOfSymbol(letter);
    IndexOfSymbol(sample);
    var c := Cesar.EncryptChar(Alphabet[letter], VoteShift(sample, letter));
    SameIndexSameSymbol(c, Alphabet[sample]);
  }

  /** A ranking of the 62 alphabet buckets. */
  predicate IsRanking(ranking: seq<int>) {
    |ranking| == AlphabetLen && forall i :: 0 <= i < |ranking| ==> 0 <= ranking[i] < AlphabetLen
  }

  /** The vote that dictionary entry `start + k` casts for rank `i`. */
  function WindowVote(ranking: seq<int>, i: nat, k: nat): SymbolIndex
    requires IsRanking(ranking) && i < DictLen && WindowStart(i) + k < DictLen
  {
    VoteShift(ranking[i], LetterIndex(WindowStart(i) + k))
  }

  /** The votes cast for rank `i`, one per entry of its window, in order. */
  function RankVotes(ranking: seq<int>, i: nat): (v: seq<int>)
    requires IsRanking(ranking) && i < DictLen
    ensures |v| == WindowEnd(i) - WindowStart(i)
    ensures forall k :: 0 <= k < |v| ==> WindowStart(i) + k < DictLen && v[k] == WindowVote(ranking, i, k)
  {
    WindowBounds(i);
    var n := WindowEnd(i) - WindowStart(i);
    var v := seq(n, k requires 0 <= k < n => WindowVote(ranking, i, k) as int);
    assert forall k :: 0 <= k < n ==> v[k] == WindowVote(ranking, i, k);
    v
  }

  /** Every vote cast for the first `n` ranks, in casting order. */
  function Votes(ranking: seq<int>, n: nat): (v: seq<int>)
    requires IsRanking(ranking) && n <= DictLen
    ensures forall k :: 0 <= k < |v| ==> 0 <= v[k] < AlphabetLen
  {
    if n == 0 then [] else Votes(ranking, n - 1) + RankVotes(ranking, n - 1)
  }

  /** No rank casts more than six votes. */
  lemma {:induction false} VotesAtMostSix(ranking: seq<int>, n: nat)
    requires IsRanking(ranking) && n <= DictLen
    ensures |Votes(ranking, n)| <= 6 * n
  {
    if n > 0 {
      VotesAtMostSix(ranking, n - 1);
      WindowBounds(n - 1);
    }
  }

  /** Whatever the input, the 26 ranks cast 147 votes in all: windows of
      3, 4 and 5 entries at the top, 21 full windows of 6, and 5 and 4 at
      the bottom. */
  lemma VoteTotal(ranking: seq<int>)
    requires IsRanking(ranking)
    ensures |Votes(ranking, DictLen)| == 147
  {
    var n := 0;
    while n < DictLen
      invariant n <= DictLen
      invariant |Votes(ranking, n)| == if n <= 3 then [0, 3, 7, 12][n] else if n <= 24 then 12 + 6 * (n - 3) else if n == 25 then 143 else 147
    {
      n := n + 1;
    }
  }

  /** How many of `votes` went to each shift. */
  ghost function VoteCounts(votes: seq<int>): (c: seq<int>)
    ensures |c| == AlphabetLen
    ensures forall d :: 0 <= d < AlphabetLen ==> c[d] == multiset(votes)[d]
  {
    seq(AlphabetLen, d => multiset(votes)[d])
  }

  /** One step of the inner loop: casting vote `k` of a window adds one to
      its shift's score, which was no larger than the number of votes cast. */
  lemma TallyStep(scores: seq<int>, cast: seq<int>, votes: seq<int>, k: nat)
    requires k < |votes| && 0 <= votes[k] < AlphabetLen
    requires scores == VoteCounts(cast + votes[..k])
    requires Sum(scores) == |cast| + k
    ensures scores[votes[k]] <= |cast| + k
    ensures VoteCounts(cast + votes[..k + 1]) == scores[votes[k] := scores[votes[k]] + 1]
    ensures Sum(scores[votes[k] := scores[votes[k]] + 1]) == |cast| + k + 1
  {
    var x := votes[k];
    assert cast + votes[..k + 1] == (cast + votes[..k]) + [x] by {
      assert votes[..k + 1] == votes[..k] + [x];
    }
    ElementAtMostSum(scores, x);
    SumIncrement(scores, x);
  }

  /** The inner `guesses` loop for rank `i`: one vote per entry of its
      window. Before it, the scores count the votes `cast` so far. */
  method CastRankVotes(ranking: seq<int>, i: nat, scores: seq<uint8>, ghost cast: seq<int>)
    returns (next: seq<uint8>)
    requires IsRanking(ranking) && i < DictLen
    requires scores == VoteCounts(cast)
    requires Sum(scores) == |cast| <= 6 * i
    ensures next == VoteCounts(cast + RankVotes(ranking, i))
    ensures Sum(next) == |cast + RankVotes(ranking, i)|
  {
    var start := WindowStart(i);
    var end := WindowEnd(i);
    WindowBounds(i);
    ghost var votes := RankVotes(ranking, i);
    next := scores;
    assert cast + votes[..0] == cast;
    var k := 0;
    while k < end - start
      invariant k <= end - start
      invariant next == VoteCounts(cast + votes[..k])
      invariant Sum(next) == |cast| + k
    {
      next := CastVote(ranking, i, k, next, cast);
      k := k + 1;
    }
    assert votes[..k] == votes;
  }

  /** One pass of the inner loop: entry `start + k` of the window votes, and
      the score of its shift goes up by one without leaving `u8`. */
  method CastVote(ranking: seq<int>, i: nat, k: nat, scores: seq<uint8>, ghost cast: seq<int>)
    returns (next: seq<uint8>)
    requires IsRanking(ranking) && i < DictLen
    requires k < WindowEnd(i) - WindowStart(i)
    requires scores == VoteCounts(cast + RankVotes(ranking, i)[..k])
    requires Sum(scores) == |cast| + k && |cast| <= 6 * i
    ensures next == VoteCounts(cast + RankVotes(ranking, i)[..k + 1])
    ensures Sum(next) == |cast| + k + 1
  {
    WindowBounds(i);
    var diff := VoteShift(ranking[i], LetterIndex(WindowStart(i) + k));
    assert RankVotes(ranking, i)[k] == diff;
    TallyStep(scores, cast, RankVotes(ranking, i), k);
    next := scores[diff := scores[diff] + 1];
  }

  /** The `guesses` loops: one `u8` score per shift, counting the votes it
      received. No score can pass 255, because no more than six votes are
      cast per rank and 26 ranks are visited. */
  method Tally(ranking: seq<int>) returns (scores: seq<uint8>)
    requires IsRanking(ranking)
    ensures |scores| == AlphabetLen
    ensures forall d :: 0 <= d < AlphabetLen ==> scores[d] == multiset(Votes(ranking, DictLen))[d]
    ensures Sum(scores) == 147
  {
    scores := seq(AlphabetLen, _ => 0);
    SumZeros(AlphabetLen);
    assert scores == VoteCounts([]);
    for i := 0 to DictLen
      invariant scores == VoteCounts(Votes(ranking, i))
      invariant Sum(scores) == |Votes(ranking, i)|
    {
      VotesAtMostSix(ranking, i);
      scores := CastRankVotes(ranking, i, scores, Votes(ranking, i));
    }
    VoteTotal(ranking);
  }

  /** A vote-count multiset has exactly one copy of `x` when `x` occurs at
      exactly one position. */
  lemma CountOne(v: seq<int>, p: nat, x: int)
    requires p < |v| && v[p] == x
    requires forall q :: 0 <= q < |v| && q != p ==> v[q] != x
    ensures multiset(v)[x] == 1
  {
    assert v == v[..p] + [x] + v[p + 1..];
    assert x !in v[..p];
    assert x !in v[p + 1..];
  }

  /** When the ranked symbol `i` is dictionary letter `i` shifted by `k`,
      exactly one vote of its window goes to `k`: the one from letter `i`
      itself, since the other letters sit at other alphabet positions. */
  lemma AlignedRankVotes(ranking: seq<int>, i: nat, k: SymbolIndex)
    requires IsRanking(ranking) && i < DictLen
    requires ranking[i] == (LetterIndex(i) + k) % AlphabetLen
    ensures multiset(RankVotes(ranking, i))[k] == 1
  {
    WindowBounds(i);
    var start := WindowStart(i);
    var v := RankVotes(ranking, i);
    VoteShiftUnique(ranking[i], LetterIndex(i), k);
    forall q | 0 <= q < |v| && q != i - start
      ensures v[q] != k
    {
      OtherLetterMisses(ranking[i], i, start + q, k);
    }
    CountOne(v, i - start, k);
  }

  /** A letter other than `i` votes for some shift other than `k`. */
  lemma OtherLetterMisses(sample: SymbolIndex, i: nat, j: nat, k: SymbolIndex)
    requires i < DictLen && j < DictLen && i != j
    requires sample == (LetterIndex(i) + k) % AlphabetLen
    ensures VoteShift(sample, LetterIndex(j)) != k
  {
    LetterIndexInjective(i, j);
    ShiftSeparates(LetterIndex(j), LetterIndex(i), k);
  }

  /** The voting is designed to recover a Caesar shift: if the top 26
      symbols of the ranking are the dictionary letters shifted by `k`, in
      list order, then shift `k` receives one vote from every rank. */
  lemma {:induction false} AlignedVotes(ranking: seq<int>, k: SymbolIndex, n: nat)
    requires IsRanking(ranking) && n <= DictLen
    requires forall i :: 0 <= i < DictLen ==> ranking[i] == (LetterIndex(i) + k) % AlphabetLen
    ensures multiset(Votes(ranking, n))[k] == n
  {
    if n > 0 {
      AlignedVotes(ranking, k, n - 1);
      AlignedRankVotes(ranking, n - 1, k);
    }
  }

  /** The shifts below `n` that received a vote, ascending
      (`filter(|a| *a.1 > 0)` over the enumerated scores). */
  function Voted(scores: seq<int>, n: nat): (r: seq<int>)
    requires n <= |scores|
    ensures Increasing(r)
    ensures forall k :: 0 <= k < |r| ==> 0 <= r[k] < n && scores[r[k]] > 0
    ensures forall d :: 0 <= d < n && scores[d] > 0 ==> d in r
  {
    if n == 0 then []
    else
      var r := Voted(scores, n - 1);
      if scores[n - 1] > 0 then r + [n - 1] else r
  }

  /** One entry of `sorted_guesses`: a shift and its score. */
  datatype Guess = Guess(shift: int, score: int)

  function Shifts(g: seq<Guess>): (r: seq<int>)
    ensures |r| == |g|
    ensures forall k :: 0 <= k < |g| ==> r[k] == g[k].shift
  {
    seq(|g|, k requires 0 <= k < |g| => g[k].shift)
  }

  /** What `sorted_guesses` promises: every voted shift exactly once with its
      score, by non-increasing score, ties in ascending shift. */
  predicate GuessList(scores: seq<int>, g: seq<Guess>) {
    && (forall k :: 0 <= k < |g| ==> 0 <= g[k].shift < |scores| && g[k].score == scores[g[k].shift] > 0)
    && (forall d :: 0 <= d < |scores| && scores[d] > 0 ==> d in Shifts(g))
    && (forall j, k :: 0 <= j < k < |g| ==>
          g[j].score > g[k].score || (g[j].score == g[k].score && g[j].shift < g[k].shift))
  }

  /** Each shift of `order` paired with its score. */
  function WithScores(scores: seq<int>, order: seq<int>): (g: seq<Guess>)
    requires Indices(scores, order)
    ensures Shifts(g) == order
    ensures forall k :: 0 <= k < |g| ==> g[k].score == scores[order[k]]
  {
    var g := seq(|order|, k requires 0 <= k < |order| => Guess(order[k], scores[order[k]]));
    assert Shifts(g) == order;
    g
  }

  /** A ranked arrangement of the voted shifts, paired with the scores, is
      a guess list. */
  lemma RankedVotedIsGuessList(scores: seq<int>, order: seq<int>)
    requires Ranked(scores, order)
    requires multiset(order) == multiset(Voted(scores, |scores|))
    ensures GuessList(scores, WithScores(scores, order))
  {
    var voted := Voted(scores, |scores|);
    var g := WithScores(scores, order);
    forall d | 0 <= d < |scores| && scores[d] > 0 ensures d in Shifts(g) {
      assert d in multiset(voted);
    }
    forall k | 0 <= k < |g| ensures scores[g[k].shift] > 0 {
      assert order[k] in multiset(voted);
    }
  }

  /** `sorted_guesses`: the voted shifts with their scores, sorted by
      descending score with a stable sort. */
  function SortedGuesses(scores: seq<int>): (g: seq<Guess>)
    ensures GuessList(scores, g)
  {
    var order := StableSortDesc(scores, Voted(scores, |scores|));
    RankedVotedIsGuessList(scores, order);
    WithScores(scores, order)
  }

  predicate Distinct(xs: seq<int>) {
    forall i, j :: 0 <= i < j < |xs| ==> xs[i] != xs[j]
  }

  /** A repetition-free sequence holds each of its elements once. */
  lemma {:induction false} DistinctMultiset(xs: seq<int>)
    requires Distinct(xs)
    ensures multiset(xs) == multiset(set x | x in xs)
  {
    if xs != [] {
      var rest := xs[1..];
      assert xs == [xs[0]] + rest;
      DistinctMultiset(rest);
      assert xs[0] !in rest;
      assert (set x | x in xs) == {xs[0]} + (set x | x in rest);
    }
  }

  /** Two repetition-free sequences with the same elements are permutations
      of each other. */
  lemma SameElementsPermutation(a: seq<int>, b: seq<int>)
    requires Distinct(a) && Distinct(b)
    requires forall x :: x in a <==> x in b
    ensures multiset(a) == multiset(b)
  {
    DistinctMultiset(a);
    DistinctMultiset(b);
    assert (set x | x in a) == (set x | x in b);
  }

  lemma GuessShiftsRanked(scores: seq<int>, g: seq<Guess>)
    requires GuessList(scores, g)
    ensures Ranked(scores, Shifts(g))
  {
    var mine := Shifts(g);
    forall i, j | 0 <= i < j < |mine| ensures Before(scores, mine[i], mine[j]) {
      assert g[i].score == scores[mine[i]] && g[j].score == scores[mine[j]];
    }
  }

  lemma GuessShiftsVoted(scores: seq<int>, g: seq<Guess>)
    requires GuessList(scores, g)
    ensures multiset(Shifts(g)) == multiset(Voted(scores, |scores|))
  {
    var voted := Voted(scores, |scores|);
    var mine := Shifts(g);
    GuessShiftsRanked(scores, g);
    forall x ensures x in mine <==> x in voted {
      if x in mine {
        var k :| 0 <= k < |mine| && mine[k] == x;
        assert g[k].score == scores[x] > 0;
      }
    }
    RankedDistinct(scores, mine);
    SameElementsPermutation(mine, voted);
  }

  /** There is exactly one guess list for a set of scores, so the stable
      sort is pinned down by the ordering rule: together with the
      postcondition of `SortedGuesses`, the list is characterised. */
  lemma GuessListUnique(scores: seq<int>, g: seq<Guess>)
    requires GuessList(scores, g)
    ensures g == SortedGuesses(scores)
  {
    var order := StableSortDesc(scores, Voted(scores, |scores|));
    GuessShiftsRanked(scores, g);
    GuessShiftsVoted(scores, g);
    RankedUnique(scores, Shifts(g), order);
    var h := SortedGuesses(scores);
    assert Shifts(h) == order == Shifts(g);
    forall k | 0 <= k < |g| ensures g[k] == h[k] {
      assert g[k].shift == Shifts(g)[k] == Shifts(h)[k] == h[k].shift;
    }
  }

  /** The head of the list is the best-supported shift, the lowest one
      among equally supported shifts. */
  lemma GuessHead(scores: seq<int>, d: nat)
    requires d < |scores| && scores[d] > 0
    ensures SortedGuesses(scores) != []
    ensures scores[d] <= SortedGuesses(scores)[0].score
    ensures scores[d] == SortedGuesses(scores)[0].score ==> SortedGuesses(scores)[0].shift <= d
  {
    var g := SortedGuesses(scores);
    assert d in Shifts(g);
    var k :| 0 <= k < |g| && Shifts(g)[k] == d;
  }

  /** Everything `analyse` computes and prints. */
  datatype Report = Report(
    buckets: seq<nat>, total: nat, ranking: seq<int>,
    byteBuckets: seq<nat>, byteTotal: nat, byteRanking: seq<int>,
    scores: seq<uint8>, guesses: seq<Guess>)

  /** `analyse` on the raw cypher bytes, each read as the Latin-1 character
      with its code. */
  method Analyse(cypher: seq<uint8>) returns (report: Report)
    ensures |report.buckets| == AlphabetLen
    ensures forall s :: 0 <= s < AlphabetLen ==> report.buckets[s] == multiset(Latin1(cypher))[Alphabet[s]]
    ensures report.total == SymbolCount(Latin1(cypher)) == Sum(report.buckets)
    ensures multiset(report.ranking) == multiset(Range(AlphabetLen))
    ensures Ranked(report.buckets, report.ranking)
    ensures |report.byteBuckets| == 0x100
    ensures forall b: uint8 :: report.byteBuckets[b] == multiset(cypher)[b]
    ensures report.byteTotal == |cypher| == Sum(report.byteBuckets)
    ensures multiset(report.byteRanking) == multiset(Range(0x100))
    ensures Ranked(report.byteBuckets, report.byteRanking)
    ensures IsRanking(report.ranking)
    ensures |report.scores| == AlphabetLen
    ensures forall d :: 0 <= d < AlphabetLen ==> report.scores[d] == multiset(Votes(report.ranking, DictLen))[d]
    ensures Sum(report.scores) == 147
    ensures GuessList(report.scores, report.guesses)
  {
    var buckets, total := CountSymbols(Latin1(cypher));
    var ranking := Rank(buckets);
    var byteBuckets, byteTotal := CountBytes(cypher);
    var byteRanking := Rank(byteBuckets);
    RankIsRanking(buckets, ranking);
    var scores := Tally(ranking);
    var guesses := SortedGuesses(scores);
    report := Report(buckets, total, ranking, byteBuckets, byteTotal, byteRanking, scores, guesses);
  }

  /** A ranking of the 62 symbol buckets lists positions in 0..62. */
  lemma RankIsRanking(buckets: seq<int>, ranking: seq<int>)
    requires |buckets| == AlphabetLen
    requires multiset(ranking) == multiset(Range(AlphabetLen))
    requires Ranked(buckets, ranking)
    ensures IsRanking(ranking)
  {
    assert |ranking| == |multiset(ranking)| == |multiset(Range(AlphabetLen))| == AlphabetLen;
  }
}

=== FILE: wrappers.dfy ===
/** Option, for the `Option<char>` that `roll` returns, and a
    failure-compatible Result, for the `anyhow::Result<String>` of the
    cipher operations. */
module Wrappers {

  datatype Option<+T> = None | Some(value: T) {

    /** The value, or `default` when there is none (Rust's `unwrap_or`). */
    function GetOr(default: T): T {
      match this
      case Some(v) => v
      case None => default
    }
  }

  datatype Result<+R, +E> = Success(value: R) | Failure(error: E) {

    predicate IsFailure() {
      Failure?
    }

    function PropagateFailure<U>(): Result<U, E>
      requires Failure?
    {
      Failure(error)
    }

    function Extract(): R
      requires Success?
    {
      value
    }
  }
}
